=== FILE: README.md ===
# HipHop news bot: a Dafny model of its core

`bot.py` runs a Telegram bot that collects hip-hop news and release charts
from a fixed list of web sites and posts them to two channels. This project
models the bot's core in Dafny and proves properties about it:

- the dedup table `posted_items` (`init_db`, `is_posted`, `mark_as_posted`);
- the retry loop of `fetch_url`;
- the scraper `parse_source`, with Python's `strip`, `startswith` and
  `split(', ')`, which the scraper relies on;
- the two caption formatters;
- `post_single_item`;
- the two cycles `post_news_cycle` and `post_releases_daily`.

The modules follow the program's structure:

| module | models |
|---|---|
| `Wrappers` | `Option`, `Min` |
| `Text` | `str.strip`, `str.startswith`, `str.split(', ')` and its inverse `', '.join` |
| `Store` | the `posted_items` table as a set of (url, type) rows |
| `Fetch` | `fetch_url`: attempts, the first status-200 body, the back-off sleeps |
| `Extract` | `parse_source`: selector lists, link and image normalisation, truncation, the first five containers |
| `Format` | `format_news_post` and `format_release_post` |
| `Registry` | `NEWS_SOURCES` and `RELEASE_SOURCES`, field by field |
| `Publish` | `post_single_item`: the dedup guard, the photo with its text fallback, the mark |
| `Cycle` | `post_news_cycle` and `post_releases_daily` |

The environment becomes data:

- A fetch is given the outcome each attempt would meet.
- A page is given as the containers its item selector matched.
- Each container says what each of its selectors returns: an element, nothing, or an exception.
- A publish is given whether the photo call and the text call would succeed.
- `urljoin` is an uninterpreted parameter `join`.

The table's uniqueness constraint is a parameter, `Store.Schema`:

- `UrlUnique` is the constraint `init_db` actually creates (`Store.Deployed`).
- `UrlKindUnique` is the per-category constraint that `is_posted` assumes.

Every operation works with either constraint. The lemmas show where the two
differ; see "## Findings".

The model follows the code as written:

- `init_db` declares `url` alone UNIQUE, not the (url, type) pair.
- `parse_source` examines the first five containers. It does not take the first five containers that yield an item.
- A cycle pauses after every successful post, including the last one. It does not pause after a refused or failed post.

## Model

| member | source | states |
|---|---|---|
| Store.Valid | bot.py:140-146 | The table's uniqueness constraint. The per-kind constraint holds for every table, since a set holds each pair once. Under url-only UNIQUE no url is recorded under both categories. |
| Store.IsPosted | bot.py:150-157 | `is_posted(url, type)` is true iff some row has both that url and that type. Such a row also makes the url present for the url-only constraint. |
| Store.Mark | bot.py:159-169 | `mark_as_posted` never fails. It only adds rows, and at most the one (url, type) row. It keeps the table's constraint. Under the per-kind constraint the pair is posted afterwards. Under url-only UNIQUE the pair is posted afterwards iff it was before or no row had that url. |
| Store.PostedAfterMark | bot.py:150-169 | For every (url, type) query, `is_posted` after a mark is true iff it was true before, or the query is the marked pair and the constraint let the INSERT through. |
| Store.MarkIdempotent | bot.py:159-169 | Marking the same pair twice leaves the same table as marking it once. |
| Store.CrossKindMarkSwallowed | bot.py:140-146 | Under url-only UNIQUE, take a valid table where the url is posted as a release. The news mark of that url changes nothing, and `is_posted(url, 'news')` stays false. |
| Store.MarkThenPosted | bot.py:150-169 | Under the per-kind constraint, a mark is always visible to the next `is_posted`. The mark changes the table iff the pair was not yet posted. |
| Fetch.FetchSpec | bot.py:171-192 | `fetch_url` returns the body of the first status-200 attempt among `retries` attempts. It returns None iff every attempt fails, and then it has made all `retries` attempts. It makes no attempt after a success. Between attempts it sleeps 2^k seconds after failed attempt k, never after the last allowed one. |
| Fetch.FetchUrl | bot.py:171-192 | The attempt loop computes exactly `FetchSpec`: the same body, attempt count and sleeps. |
| Fetch.BackoffTotal | bot.py:183-191 | k back-off sleeps add up to 2^k - 1 seconds. |
| Fetch.DefaultFetchBounds | bot.py:171 | With the default `retries=3`: at most three requests, at most two sleeps, at most 3 seconds asleep. |
| Text.StripTruncate | bot.py:240 | `t[:n].strip()` of a string with no leading space is trimmed and at most `n` long. It is a prefix of `t`, and it is empty only when `t` is. |
| Text.SplitJoin | bot.py:205 | `', '.join(s.split(', ')) == s`: splitting a selector rule loses nothing. |
| Text.SplitPieces | bot.py:205 | No piece of `s.split(', ')` contains the separator. |
| Extract.FirstMatchNotFound | bot.py:204-208 | The selector loop finds nothing iff every stripped selector finds nothing. |
| Extract.FirstMatchHit | bot.py:204-208 | Let selector k be the first that does not answer "nothing". The loop yields exactly what selector k yields, an element or an exception, whatever later selectors would give. |
| Extract.Resolve | bot.py:226-229 | A link is kept as is iff it starts with `http`. Otherwise it is `urljoin(base_url, link)`, whether or not it starts with `/`. |
| Extract.ImageOf | bot.py:250-256 | The image is the normalised `src` when `src` is truthy. Otherwise it is the normalised `data-src` when that is truthy, and otherwise it is absent. |
| Extract.Describe | bot.py:240-262 | A description is at most 200 characters and trimmed. It is a prefix of the element's stripped text, and it is empty iff that text is. Of the first 200 characters of that text, only trailing whitespace is dropped, so a text that fits is kept whole. |
| Extract.ExtractItem | bot.py:202-268 | An item from a container carries the source's name, a non-empty trimmed title, and a trimmed description of at most 200 characters. |
| Extract.WithImage | bot.py:244-256 | The image step changes nothing but the item's image. The item is dropped iff the image lookup raises. With no image element the item is left unchanged. With one, the image is that element's `src` or `data-src`, normalised. |
| Extract.AssembledIff | bot.py:202-268 | A container yields an item iff all of these hold: its title lookup finds an element with non-empty stripped text; its link lookup finds an element with a non-empty `href`; neither the description lookup nor the image lookup raises. |
| Extract.AssembledFields | bot.py:211-264 | An extracted item's title is the stripped title text, and its url is the resolved `href`. Its description is the truncated description text, or "" when none is found. Its image is the image of the image element, or absent when none is found. |
| Extract.Items | bot.py:200-265 | Every appended item is an extraction that succeeded, and there are no more items than containers. |
| Extract.KeptIff | bot.py:201-268 | A container position is kept iff its extraction succeeded. |
| Extract.ItemsAtKept | bot.py:201-265 | The j-th item is the one extracted at the j-th kept position. |
| Extract.KeptIncreasing | bot.py:201 | Kept positions are in range and strictly increasing, so items keep document order. |
| Extract.Parse | bot.py:194-272 | `parse_source` yields at most five items and never more than there are containers. An unparsable page yields `[]`. Every item carries the source's name and a non-empty title. |
| Extract.ParseOrigins | bot.py:201-268 | The items of a page come exactly from the containers among the first five whose extraction succeeded, each from its own container and in document order. A later container never fills the place of a skipped one. |
| Format.FormatNews | bot.py:274-281 | A news caption starts with the newspaper mark and the bold title. It ends with the pushpin line naming the source, then the link line with the item's url anchored "Read more". Between them lies only the description block, present when the description is non-empty. |
| Format.FormatRelease | bot.py:283-290 | A release caption starts with the fire mark and the bold title. It ends with the pushpin line naming the source, then the link line with the item's url anchored "Chart on Billboard". Between them lies only the description block, present when the description is non-empty. |
| Format.FormattersDifferOnlyInMarkAndAnchor | bot.py:274-290 | The two captions of an item differ only in the one-character leading mark and the anchor text. |
| Format.DescriptionShownIffNonEmpty | bot.py:274-290 | For both formatters: a caption differs from the caption of the item without description iff the description is non-empty. When it is non-empty, the caption is the bare caption with `description` and a blank line inserted right after the heading. |
| Publish.PostSingleItem | bot.py:292-329 | An item already posted under the kind is refused: no call, no write. Otherwise the first call carries the item's photo when it has one, and none otherwise. A second call is made iff there is a photo and the photo call failed; it is a text call whose success is the text outcome. The result is True iff one call succeeded, and then the pair is marked; a failure leaves the table unchanged. Every call is for this item, channel and caption. |
| Publish.ReleaseUrlResentAsNews | bot.py:292-329 | Under url-only UNIQUE, take an item whose url is posted as a release, and a transport under which its delivery succeeds (the photo or the text fallback for an item with a photo, the text for one without). Offering it to the news cycle twice delivers it twice and reports success twice, and the table does not change. |
| Publish.PublishedNotResent | bot.py:292-329 | Under the per-kind constraint, a successfully published item is posted for its kind, and a second offer makes no call. |
| Cycle.Contribution | bot.py:337-345 | A source whose fetch gave up, or returned an empty page, adds no candidate. A source whose fetch returned a non-empty page adds exactly what the parser extracts from it. Under a bounded parser a source adds at most five. |
| Cycle.BotParser | bot.py:194-272 | The bot's parser never yields more than five items for a page. |
| Cycle.CandidatesAppend | bot.py:337-342 | Sources contribute independently and in order: the candidates of two groups of sources are the first group's followed by the second's. |
| Cycle.FailedSourceSkipped | bot.py:339-345 | A source whose every attempt fails adds nothing, and the candidates are those of the other sources in order. |
| Cycle.CandidatesBound | bot.py:337-342 | A cycle has at most five candidates per source. |
| Cycle.PublishAll | bot.py:352-356 | The publish loop counts successful posts, at most one per item. It pauses `pace` seconds after each success and only then. The count equals the number of successful transport calls. No row is removed. |
| Cycle.PublishAllWrites | bot.py:352-356 | The loop writes only rows for its own items' urls under its own kind, and keeps the table's constraint. |
| Cycle.NeverRedelivered | bot.py:352-356 | Every transport call of a cycle is for one of its items, on its channel, for an item not posted under the kind when the cycle began. |
| Cycle.DeliveredThenPosted | bot.py:352-356 | Under the per-kind constraint, every item a cycle delivers is posted for its kind when the cycle ends. |
| Cycle.Gather | bot.py:334-345 | The fetch-and-parse loop collects exactly the concatenation of the sources' contributions, in source order. |
| Cycle.PublishEach | bot.py:352-356 | The publish loop computes exactly `PublishAll`. |
| Cycle.RunCycle | bot.py:331-359 | A cycle publishes the first `cap` candidates in order. Its count is at most `cap` and at most the number of candidates. With no candidates it returns 0 and makes no call and no write. |
| Cycle.NewsCycle | bot.py:331-359 | The cycle offers to `post_single_item`, in order, the first three candidates that the bot's parser extracts from the news sources. It makes at most three posts, each followed by a 2-second pause. None of them is an item already posted as news. Only news rows are added. |
| Cycle.ReleasesCycle | bot.py:361-390 | The cycle offers to `post_single_item`, in order, the first five candidates that the bot's parser extracts from the release sources. It makes at most five posts, each followed by a 1-second pause. None of them is an item already posted as a release. Only release rows are added. |

## Left out

- Network, HTML and Telegram: `aiohttp`, BeautifulSoup, CSS selector matching, and the Telegram `Bot` are replaced by their outcomes as data. A page is the sequence of containers the item rule matched. What each selector returns per container is given.
- `urljoin` is an uninterpreted function parameter. Nothing is proved about the shape of the URLs it produces. In particular the model allows it to return "", so `Extract.ImageOf` can give `Some("")`, which `post_single_item` would treat as falsy; Python's `urljoin` never returns "" for a non-empty reference, so no real input reaches that case.
- Extract.ExtractItem: an element's text is one text node, and `get_text(strip=True)` is modelled as `strip()` of that text. Text spread over several nodes is not modelled.
- Extract.ImageOf: an image value of "" and a missing image are both `None`. Only their truthiness matters to `post_single_item`.
- The semaphore, and concurrency in general, are not modelled; the cycles are sequential. The semaphore limits how many requests run at once. It stays held during the back-off sleep after a non-200 answer, so it delays other fetches. It does not change what any fetch returns.
- `asyncio.sleep` is recorded as a number of seconds, not taken. Clock reads and the `schedule`, `pytz` and `datetime` based scheduler (`run_scheduler`, `main`) are left out. They only decide when a cycle starts.
- The random User-Agent and the 20-second request timeout are left out. The timeout appears only as the `TimedOut` attempt outcome.
- Logging and `print` are left out. They produce no value the bot reads.
- sqlite I/O, the `id` and `posted_at` columns, and sqlite errors other than the swallowed IntegrityError are left out. The table is the set of its (url, type) rows.
- The `.env` loading and the token are left out.
- Cycle.RunCycle: the environment gives at least `retries` attempt outcomes per source and one transport outcome per publishable item. These requires describe the shape of the data, not a demand of the source.
- Cycle.Contribution: the cycle is generic over the page parser. The bot's `parse_source` is plugged in by `Cycle.BotParser` in `NewsCycle` and `ReleasesCycle`. The five-per-source bound is stated for bounded parsers.
- The exception handlers around `parse_source` and `post_single_item` only catch failures of the modelled steps: an unparsable page, a raising selector, failed transport calls. No other exception is modelled.

## Findings

| source | as written | input that shows it | evidently intended | confidence | as-written member | corrected member |
|---|---|---|---|---|---|---|
| bot.py:142 | `url` alone is UNIQUE, while `is_posted` (bot.py:154) looks up the (url, type) pair. A url recorded under one type can never be recorded under the other: the INSERT fails and the IntegrityError is swallowed (bot.py:166-167). | A url is posted as a release. Later a news source lists the same url, and the text send succeeds. Every news cycle then re-sends it and reports it posted, because the news mark never sticks. | A uniqueness constraint on (url, type), so that each kind deduplicates on its own. | medium, not executed | Publish.ReleaseUrlResentAsNews | Publish.PublishedNotResent |

=== FILE: cycle.dfy ===
/**
 `post_news_cycle` and `post_releases_daily`: fetch and parse every source
 of the category in order, keep the first `cap` candidates, and publish them
 one after another, pausing after each success.
 */
module Cycle {
  import opened Wrappers
  import opened Store
  import opened Fetch
  import opened Extract
  import opened Publish
  import Registry

  /**
   The page parser a cycle applies to each fetched page; the bot's own is
   `Extract.Parse` with its url joiner (see `NewsCycle`).
   */
  type Parser = (SourceConfig, Page) -> seq<Item>

  /** The parser never yields more than five items for a page, as `Extract.Parse` does. */
  ghost predicate Bounded(parse: Parser)
  {
    forall cfg, page :: |parse(cfg, page)| <= MaxContainers
  }

  /** `parse_source` with the url joiner `join`: a bounded parser. */
  function BotParser(join: (string, string) -> string): (parse: Parser)
    ensures Bounded(parse)
    ensures forall cfg, page :: parse(cfg, page) == Parse(join, cfg, page)
  {
    (cfg, page) => Parse(join, cfg, page)
  }

  /** What the network gives one source during a cycle: its attempt outcomes and the parsed page. */
  datatype SourceEnv = SourceEnv(attempts: seq<Attempt>, page: Page)

  datatype CycleResult = CycleResult(
    count: nat,          // the returned `posted_count`
    rows: Rows,          // the dedup table afterwards
    sends: seq<Send>,    // the transport calls made, in order
    pauses: seq<nat>)    // the `asyncio.sleep` pauses between posts, in seconds

  const NewsCap: nat := 3
  const NewsPace: nat := 2
  const ReleaseCap: nat := 5
  const ReleasePace: nat := 1

  /** Every source has an outcome for each of the default number of attempts. */
  predicate Answerable(envs: seq<SourceEnv>)
  {
    forall i :: 0 <= i < |envs| ==> Retries <= |envs[i].attempts|
  }

  /**
   The items one source adds to the cycle: none when the fetch gave up or
   returned an empty page (`if html:`), otherwise what the parser extracts.
   */
  function Contribution(parse: Parser, cfg: SourceConfig, env: SourceEnv): (r: seq<Item>)
    requires Retries <= |env.attempts|
    ensures FetchSpec(env.attempts, Retries).body.None? ==> r == []
    ensures FetchSpec(env.attempts, Retries).body == Some("") ==> r == []
    ensures var b := FetchSpec(env.attempts, Retries).body;
            b.Some? && b.value != "" ==> r == parse(cfg, env.page)
    ensures Bounded(parse) ==> |r| <= MaxContainers
  {
    var body := FetchSpec(env.attempts, Retries).body;
    if body.Some? && body.value != "" then parse(cfg, env.page) else []
  }

  /** The contribution of each source, in source order. */
  function Contributions(parse: Parser, cfgs: seq<SourceConfig>, envs: seq<SourceEnv>): (cs: seq<seq<Item>>)
    requires |envs| == |cfgs| && Answerable(envs)
    ensures |cs| == |cfgs|
    ensures forall i :: 0 <= i < |cfgs| ==> cs[i] == Contribution(parse, cfgs[i], envs[i])
  {
    seq(|cfgs|, i requires 0 <= i < |cfgs| => Contribution(parse, cfgs[i], envs[i]))
  }

  function Concat(parts: seq<seq<Item>>): seq<Item>
  {
    if parts == [] then [] else Concat(parts[..|parts| - 1]) + parts[|parts| - 1]
  }

  /** `all_news.extend(...)` over the sources, in source order. */
  function Candidates(parse: Parser, cfgs: seq<SourceConfig>, envs: seq<SourceEnv>): (r: seq<Item>)
    requires |envs| == |cfgs| && Answerable(envs)
  {
    Concat(Contributions(parse, cfgs, envs))
  }

  lemma {:induction false} ConcatAppend(a: seq<seq<Item>>, b: seq<seq<Item>>)
    ensures Concat(a + b) == Concat(a) + Concat(b)
    decreases |b|
  {
    if b == [] {
      assert a + b == a;
    } else {
      var n := |b| - 1;
      ConcatAppend(a, b[..n]);
      assert (a + b)[..|a| + n] == a + b[..n];
    }
  }

  /**
   Sources contribute independently: the candidates of two groups of sources
   are the candidates of the first followed by those of the second.
   */
  lemma CandidatesAppend(
    parse: Parser,
    cfgs1: seq<SourceConfig>, envs1: seq<SourceEnv>,
    cfgs2: seq<SourceConfig>, envs2: seq<SourceEnv>)
    requires |envs1| == |cfgs1| && Answerable(envs1)
    requires |envs2| == |cfgs2| && Answerable(envs2)
    ensures Answerable(envs1 + envs2)
    ensures Candidates(parse, cfgs1 + cfgs2, envs1 + envs2)
            == Candidates(parse, cfgs1, envs1) + Candidates(parse, cfgs2, envs2)
  {
    assert forall i :: 0 <= i < |envs1 + envs2| ==>
      (envs1 + envs2)[i] == if i < |envs1| then envs1[i] else envs2[i - |envs1|];
    assert Contributions(parse, cfgs1 + cfgs2, envs1 + envs2)
           == Contributions(parse, cfgs1, envs1) + Contributions(parse, cfgs2, envs2);
    ConcatAppend(Contributions(parse, cfgs1, envs1), Contributions(parse, cfgs2, envs2));
  }

  lemma {:induction false} ConcatBound(parts: seq<seq<Item>>, bound: nat)
    requires forall i :: 0 <= i < |parts| ==> |parts[i]| <= bound
    ensures |Concat(parts)| <= bound * |parts|
  {
    if parts != [] {
      ConcatBound(parts[..|parts| - 1], bound);
    }
  }

  /** Each source adds at most five candidates, so a cycle has at most five per source. */
  lemma CandidatesBound(parse: Parser, cfgs: seq<SourceConfig>, envs: seq<SourceEnv>)
    requires |envs| == |cfgs| && Answerable(envs)
    requires Bounded(parse)
    ensures |Candidates(parse, cfgs, envs)| <= MaxContainers * |cfgs|
  {
    ConcatBound(Contributions(parse, cfgs, envs), MaxContainers);
  }

  /** A source whose every attempt failed adds no candidate, whatever surrounds it. */
  lemma FailedSourceSkipped(
    parse: Parser,
    cfgs1: seq<SourceConfig>, envs1: seq<SourceEnv>,
    cfg: SourceConfig, env: SourceEnv,
    cfgs2: seq<SourceConfig>, envs2: seq<SourceEnv>)
    requires |envs1| == |cfgs1| && Answerable(envs1)
    requires |envs2| == |cfgs2| && Answerable(envs2)
    requires Retries <= |env.attempts|
    requires forall i :: 0 <= i < Retries ==> !IsOk(env.attempts[i])
    ensures Answerable(envs1 + [env] + envs2)
    ensures Candidates(parse, cfgs1 + [cfg] + cfgs2, envs1 + [env] + envs2)
            == Candidates(parse, cfgs1, envs1) + Candidates(parse, cfgs2, envs2)
  {
    var one := Candidates(parse, [cfg], [env]);
    assert one == [] by {
      assert Contribution(parse, cfg, env) == [];
      var none: seq<seq<Item>> := [[]];
      assert Contributions(parse, [cfg], [env]) == none;
      assert none[..0] == [];
    }
    CandidatesAppend(parse, cfgs1, envs1, [cfg], [env]);
    var front := Candidates(parse, cfgs1 + [cfg], envs1 + [env]);
    assert front == Candidates(parse, cfgs1, envs1);
    CandidatesAppend(parse, cfgs1 + [cfg], envs1 + [env], cfgs2, envs2);
  }

  /** One `post_single_item` call of the publish loop, and the pause after a success. */
  function Step(schema: Schema, channel: string, kind: Kind, pace: nat, acc: CycleResult, item: Item, t: Transport): CycleResult
  {
    var p := PostSingleItem(schema, acc.rows, item, channel, kind, t);
    CycleResult(
      acc.count + (if p.posted then 1 else 0),
      p.rows,
      acc.sends + p.sends,
      acc.pauses + (if p.posted then [pace] else []))
  }

  /**
   The publish loop over `items`, the i-th with transport outcome `ts[i]`: it
   counts the successful posts, pauses `pace` after each of them only, and
   never removes a row.
   */
  function PublishAll(schema: Schema, rows: Rows, items: seq<Item>, channel: string, kind: Kind, pace: nat, ts: seq<Transport>): (r: CycleResult)
    requires |items| <= |ts|
    ensures r.count <= |items|
    ensures r.pauses == seq(r.count, _ => pace)
    ensures OkCount(r.sends) == r.count
    ensures rows <= r.rows
  {
    if items == [] then CycleResult(0, rows, [], [])
    else
      var n := |items| - 1;
      var acc := PublishAll(schema, rows, items[..n], channel, kind, pace, ts);
      var p := PostSingleItem(schema, acc.rows, items[n], channel, kind, ts[n]);
      OkCountAppend(acc.sends, p.sends);
      Step(schema, channel, kind, pace, acc, items[n], ts[n])
  }

  /** The rows marking each of `items` as posted under `kind`. */
  function RowsOf(items: seq<Item>, kind: Kind): set<Row>
  {
    set it | it in items :: Row(it.url, kind)
  }

  /**
   The publish loop writes only rows for the urls of its items, under its
   kind, and keeps the table's uniqueness constraint.
   */
  lemma {:induction false} PublishAllWrites(schema: Schema, rows: Rows, items: seq<Item>, channel: string, kind: Kind, pace: nat, ts: seq<Transport>)
    requires |items| <= |ts|
    ensures PublishAll(schema, rows, items, channel, kind, pace, ts).rows <= rows + RowsOf(items, kind)
    ensures Valid(schema, rows) ==> Valid(schema, PublishAll(schema, rows, items, channel, kind, pace, ts).rows)
  {
    if items != [] {
      var n := |items| - 1;
      PublishAllWrites(schema, rows, items[..n], channel, kind, pace, ts);
      var acc := PublishAll(schema, rows, items[..n], channel, kind, pace, ts);
      var p := PostSingleItem(schema, acc.rows, items[n], channel, kind, ts[n]);
      assert PublishAll(schema, rows, items, channel, kind, pace, ts).rows == p.rows;
      assert p.rows <= acc.rows + {Row(items[n].url, kind)};
      assert RowsOf(items[..n], kind) <= RowsOf(items, kind) by {
        assert forall it :: it in items[..n] ==> it in items;
      }
      assert Row(items[n].url, kind) in RowsOf(items, kind);
    }
  }

  /**
   Every transport call of the loop is for one of its items, on its channel,
   and for an item not posted under the kind when the loop began: an item
   already recorded is never delivered again.
   */
  lemma {:induction false} NeverRedelivered(schema: Schema, rows: Rows, items: seq<Item>, channel: string, kind: Kind, pace: nat, ts: seq<Transport>)
    requires |items| <= |ts|
    ensures forall s :: s in PublishAll(schema, rows, items, channel, kind, pace, ts).sends ==>
              && s.item in items
              && s.channel == channel
              && !IsPosted(rows, s.item.url, kind)
  {
    if items != [] {
      var n := |items| - 1;
      NeverRedelivered(schema, rows, items[..n], channel, kind, pace, ts);
      var acc := PublishAll(schema, rows, items[..n], channel, kind, pace, ts);
      var p := PostSingleItem(schema, acc.rows, items[n], channel, kind, ts[n]);
      var r := PublishAll(schema, rows, items, channel, kind, pace, ts);
      assert r.sends == acc.sends + p.sends;
      assert forall it :: it in items[..n] ==> it in items;
      assert forall s :: s in p.sends ==> s.item == items[n];
    }
  }

  lemma {:induction false} OkCountAppend(a: seq<Send>, b: seq<Send>)
    ensures OkCount(a + b) == OkCount(a) + OkCount(b)
    decreases |b|
  {
    if b == [] {
      assert a + b == a;
    } else {
      var n := |b| - 1;
      OkCountAppend(a, b[..n]);
      assert (a + b)[..|a| + n] == a + b[..n];
    }
  }

  /**
   With the per-kind constraint, every item delivered by a cycle is posted
   for its kind once the cycle ends, so no later cycle of that kind delivers
   it again.
   */
  lemma {:induction false} DeliveredThenPosted(rows: Rows, items: seq<Item>, channel: string, kind: Kind, pace: nat, ts: seq<Transport>)
    requires |items| <= |ts|
    ensures forall s :: s in PublishAll(UrlKindUnique, rows, items, channel, kind, pace, ts).sends && s.ok ==>
              IsPosted(PublishAll(UrlKindUnique, rows, items, channel, kind, pace, ts).rows, s.item.url, kind)
  {
    if items != [] {
      var n := |items| - 1;
      DeliveredThenPosted(rows, items[..n], channel, kind, pace, ts);
      var acc := PublishAll(UrlKindUnique, rows, items[..n], channel, kind, pace, ts);
      var p := PostSingleItem(UrlKindUnique, acc.rows, items[n], channel, kind, ts[n]);
      var r := PublishAll(UrlKindUnique, rows, items, channel, kind, pace, ts);
      assert r.sends == acc.sends + p.sends;
      assert r.rows == p.rows && acc.rows <= p.rows;
      forall s | s in p.sends && s.ok
        ensures IsPosted(p.rows, s.item.url, kind)
      {
        assert Delivered(p.sends);
      }
    }
  }

  /** `all_news[:cap]`. */
  function Take(items: seq<Item>, cap: nat): seq<Item>
  {
    items[..Min(cap, |items|)]
  }

  /** The fetch-and-parse loop over the sources of a cycle. */
  method Gather(parse: Parser, cfgs: seq<SourceConfig>, envs: seq<SourceEnv>)
    returns (all: seq<Item>)
    requires |envs| == |cfgs| && Answerable(envs)
    ensures all == Candidates(parse, cfgs, envs)
  {
    all := [];
    var i := 0;
    while i < |cfgs|
      invariant i <= |cfgs|
      invariant all == Concat(Contributions(parse, cfgs[..i], envs[..i]))
    {
      NextContribution(parse, cfgs, envs, i);
      var fetched := FetchUrl(envs[i].attempts, Retries);
      if fetched.body.Some? && fetched.body.value != "" {
        all := all + parse(cfgs[i], envs[i].page);
      }
      i := i + 1;
    }
    assert cfgs[..i] == cfgs && envs[..i] == envs;
  }

  /** Extending the processed prefix by one source appends that source's contribution. */
  lemma NextContribution(parse: Parser, cfgs: seq<SourceConfig>, envs: seq<SourceEnv>, i: nat)
    requires |envs| == |cfgs| && Answerable(envs)
    requires i < |cfgs|
    ensures Concat(Contributions(parse, cfgs[..i + 1], envs[..i + 1]))
            == Concat(Contributions(parse, cfgs[..i], envs[..i])) + Contribution(parse, cfgs[i], envs[i])
  {
    var cs := Contributions(parse, cfgs[..i], envs[..i]);
    var cs' := Contributions(parse, cfgs[..i + 1], envs[..i + 1]);
    assert cs' == cs + [Contribution(parse, cfgs[i], envs[i])];
    assert cs'[..i] == cs;
  }

  /** The publish loop: `post_single_item` on each item in order, pausing after each success. */
  method PublishEach(schema: Schema, rows: Rows, batch: seq<Item>, channel: string, kind: Kind, pace: nat, ts: seq<Transport>)
    returns (r: CycleResult)
    requires |batch| <= |ts|
    ensures r == PublishAll(schema, rows, batch, channel, kind, pace, ts)
  {
    r := CycleResult(0, rows, [], []);
    var j := 0;
    while j < |batch|
      invariant j <= |batch|
      invariant r == PublishAll(schema, rows, batch[..j], channel, kind, pace, ts)
    {
      assert batch[..j + 1][..j] == batch[..j];
      r := Step(schema, channel, kind, pace, r, batch[j], ts[j]);
      j := j + 1;
    }
    assert batch[..j] == batch;
  }

  /**
   A whole cycle: gather the candidates of every source, keep the first `cap`,
   and publish them in order; the returned count is the number of successful
   posts, at most `cap` and at most the number of candidates, and no
   candidate list means no call at all.
   */
  method RunCycle(
    schema: Schema, rows: Rows, parse: Parser,
    cfgs: seq<SourceConfig>, envs: seq<SourceEnv>,
    channel: string, kind: Kind, cap: nat, pace: nat, ts: seq<Transport>)
    returns (r: CycleResult)
    requires |envs| == |cfgs| && Answerable(envs)
    requires cap <= |ts|
    ensures r == PublishAll(schema, rows, Take(Candidates(parse, cfgs, envs), cap), channel, kind, pace, ts)
    ensures r.count <= cap && r.count <= |Candidates(parse, cfgs, envs)|
    ensures Candidates(parse, cfgs, envs) == [] ==> r == CycleResult(0, rows, [], [])
  {
    var all := Gather(parse, cfgs, envs);
    if all == [] {
      return CycleResult(0, rows, [], []);
    }
    r := PublishEach(schema, rows, Take(all, cap), channel, kind, pace, ts);
  }

  /** `post_news_cycle`: the news sources, at most three posts, two seconds apart. */
  method NewsCycle(schema: Schema, rows: Rows, join: (string, string) -> string, envs: seq<SourceEnv>, channel: string, ts: seq<Transport>)
    returns (r: CycleResult)
    requires |envs| == |Registry.NewsSources| && Answerable(envs)
    requires NewsCap <= |ts|
    ensures r == PublishAll(schema, rows, Take(Candidates(BotParser(join), Registry.NewsSources, envs), NewsCap), channel, News, NewsPace, ts)
    ensures r.count <= 3
    ensures r.pauses == seq(r.count, _ => 2)
    ensures forall s :: s in r.sends ==> !IsPosted(rows, s.item.url, News)
    ensures rows <= r.rows && forall row :: row in r.rows - rows ==> row.kind == News
  {
    r := RunCycle(schema, rows, BotParser(join), Registry.NewsSources, envs, channel, News, NewsCap, NewsPace, ts);
    var batch := Take(Candidates(BotParser(join), Registry.NewsSources, envs), NewsCap);
    NeverRedelivered(schema, rows, batch, channel, News, NewsPace, ts);
    PublishAllWrites(schema, rows, batch, channel, News, NewsPace, ts);
  }

  /** `post_releases_daily`: the release sources, at most five posts, one second apart. */
  method ReleasesCycle(schema: Schema, rows: Rows, join: (string, string) -> string, envs: seq<SourceEnv>, channel: string, ts: seq<Transport>)
    returns (r: CycleResult)
    requires |envs| == |Registry.ReleaseSources| && Answerable(envs)
    requires ReleaseCap <= |ts|
    ensures r == PublishAll(schema, rows, Take(Candidates(BotParser(join), Registry.ReleaseSources, envs), ReleaseCap), channel, Release, ReleasePace, ts)
    ensures r.count <= 5
    ensures r.pauses == seq(r.count, _ => 1)
    ensures forall s :: s in r.sends ==> !IsPosted(rows, s.item.url, Release)
    ensures rows <= r.rows && forall row :: row in r.rows - rows ==> row.kind == Release
  {
    r := RunCycle(schema, rows, BotParser(join), Registry.ReleaseSources, envs, channel, Release, ReleaseCap, ReleasePace, ts);
    var batch := Take(Candidates(BotParser(join), Registry.ReleaseSources, envs), ReleaseCap);
    NeverRedelivered(schema, rows, batch, channel, Release, ReleasePace, ts);
    PublishAllWrites(schema, rows, batch, channel, Release, ReleasePace, ts);
  }
}

=== FILE: extract.dfy ===
/**
 `parse_source`: from a page's item containers to at most five candidate items.
 The HTML parser and CSS matching are abstract: a page is the sequence of
 containers `soup.select(item_selector)` returned, and a container answers
 `select_one(selector)` with an element, nothing, or an exception.
 `urljoin` is the uninterpreted parameter `join`.
 */
module Extract {
  import opened Wrappers
  import opened Text

  /** A matched tag: its text (one text node) and its attributes. */
  datatype Element = Element(text: string, attrs: map<string, string>)

  /** The three outcomes of `container.select_one(selector)`. */
  datatype Lookup = Found(elem: Element) | NotFound | Fault

  /** An item container; a selector it does not list matches nothing. */
  datatype Container = Container(matches: map<string, Lookup>)

  /** The parsed page, or the exception raised while parsing it or selecting its containers. */
  datatype Page = Parsed(containers: seq<Container>) | Unparsable

  /**
   One entry of `NEWS_SOURCES` / `RELEASE_SOURCES`. Each rule is a `', '`-separated
   list of selectors tried in order; `itemRule` is applied by the abstract parser.
   */
  datatype SourceConfig = SourceConfig(
    name: string,
    url: string,
    itemRule: string,
    titleRule: string,
    linkRule: string,
    descriptionRule: string,
    imageRule: string,
    baseUrl: string)

  /** The dict `parse_source` appends; `image` None stands for both falsy values. */
  datatype Item = Item(source: string, title: string, url: string, description: string, image: Option<string>)

  /** Why a container produced no item. */
  datatype SkipReason = NoTitle | EmptyTitle | NoLink | EmptyHref | Raised

  datatype Extraction = Extracted(item: Item) | Skipped(reason: SkipReason)

  /** How many containers are examined per page (`items[:5]`). */
  const MaxContainers: nat := 5

  /** How many characters of a description are kept (`[:200]`). */
  const MaxDescription: nat := 200

  function Select(c: Container, selector: string): Lookup
  {
    if selector in c.matches then c.matches[selector] else NotFound
  }

  /** Selector `k` is the first of the list that does not answer NotFound. */
  predicate FirstHit(c: Container, selectors: seq<string>, k: int)
  {
    && 0 <= k < |selectors|
    && Select(c, Strip(selectors[k])) != NotFound
    && forall j :: 0 <= j < k ==> Select(c, Strip(selectors[j])) == NotFound
  }

  /**
   The `for selector in rule.split(', ')` loop: each selector is stripped and
   tried in turn; the first element found ends the loop, and an exception
   propagates out of it.
   */
  function FirstMatch(c: Container, selectors: seq<string>): (r: Lookup)
    decreases |selectors|
  {
    if selectors == [] then NotFound
    else match Select(c, Strip(selectors[0]))
      case Found(e) => Found(e)
      case Fault => Fault
      case NotFound => FirstMatch(c, selectors[1..])
  }

  /** The lookup finds nothing exactly when every selector finds nothing. */
  lemma {:induction false} FirstMatchNotFound(c: Container, selectors: seq<string>)
    ensures FirstMatch(c, selectors) == NotFound
            <==> forall j :: 0 <= j < |selectors| ==> Select(c, Strip(selectors[j])) == NotFound
    decreases |selectors|
  {
    if selectors != [] {
      var rest := selectors[1..];
      FirstMatchNotFound(c, rest);
      assert forall j :: 0 <= j < |rest| ==> rest[j] == selectors[j + 1];
      if Select(c, Strip(selectors[0])) == NotFound {
        assert FirstMatch(c, selectors) == FirstMatch(c, rest);
        forall j | 0 <= j < |selectors| && Select(c, Strip(selectors[j])) != NotFound
          ensures FirstMatch(c, selectors) != NotFound
        {
          assert selectors[j] == rest[j - 1];
        }
      }
    }
  }

  /**
   First match wins: when selector `k` is the first that does not answer
   NotFound, the lookup yields exactly what selector `k` yields (the element
   or the exception), whatever the later selectors would give.
   */
  lemma {:induction false} FirstMatchHit(c: Container, selectors: seq<string>, k: int)
    requires FirstHit(c, selectors, k)
    ensures FirstMatch(c, selectors) == Select(c, Strip(selectors[k]))
    decreases |selectors|
  {
    if k > 0 {
      assert FirstHit(c, selectors[1..], k - 1) by {
        assert forall j :: 0 <= j < k - 1 ==> selectors[1..][j] == selectors[j + 1];
      }
      FirstMatchHit(c, selectors[1..], k - 1);
    }
  }

  /** The lookup for one field of a source config. */
  function Field(c: Container, rule: string): Lookup
  {
    FirstMatch(c, Split(rule))
  }

  /**
   The link/image normalisation: a reference starting with '/' and any other
   reference not starting with 'http' both go through `urljoin`, so only the
   'http' prefix decides.
   */
  function Resolve(join: (string, string) -> string, baseUrl: string, ref: string): (r: string)
    ensures StartsWith(ref, "http") ==> r == ref
    ensures !StartsWith(ref, "http") ==> r == join(baseUrl, ref)
  {
    if StartsWith(ref, "/") then
      assert ref[0] == '/';
      join(baseUrl, ref)
    else if !StartsWith(ref, "http") then join(baseUrl, ref)
    else ref
  }

  /** `img.get('src') or img.get('data-src')`, normalised when truthy. */
  function ImageOf(join: (string, string) -> string, baseUrl: string, img: Element): (r: Option<string>)
    ensures "src" in img.attrs && img.attrs["src"] != ""
            ==> r == Some(Resolve(join, baseUrl, img.attrs["src"]))
    ensures ("src" !in img.attrs || img.attrs["src"] == "")
            ==> r == (if "data-src" in img.attrs && img.attrs["data-src"] != ""
                      then Some(Resolve(join, baseUrl, img.attrs["data-src"])) else None)
  {
    var raw :=
      if "src" in img.attrs && img.attrs["src"] != "" then img.attrs["src"]
      else if "data-src" in img.attrs then img.attrs["data-src"]
      else "";
    if raw != "" then Some(Resolve(join, baseUrl, raw)) else None
  }

  /**
   `text.strip()[:200]` followed by the final `.strip()` of the item dict: the
   first 200 characters of the stripped text less their trailing whitespace,
   so a stripped text that fits is kept whole.
   */
  function Describe(text: string): (d: string)
    ensures |d| <= MaxDescription && Trimmed(d)
    ensures d <= Strip(text)
    ensures d == "" <==> Strip(text) == ""
    ensures forall k :: |d| <= k < Min(MaxDescription, |Strip(text)|) ==> IsSpace(Strip(text)[k])
  {
    var t := Strip(text);
    StripTruncate(t, MaxDescription);
    Strip(t[..Min(MaxDescription, |t|)])
  }

  /** The body of the per-container `try` block. */
  function ExtractItem(join: (string, string) -> string, cfg: SourceConfig, c: Container): (r: Extraction)
    ensures r.Extracted? ==>
      && r.item.source == cfg.name
      && r.item.title != "" && Trimmed(r.item.title)
      && |r.item.description| <= MaxDescription && Trimmed(r.item.description)
  {
    Assemble(join, cfg, Field(c, cfg.titleRule), Field(c, cfg.linkRule),
             Field(c, cfg.descriptionRule), Field(c, cfg.imageRule))
  }

  /**
   The steps of the `try` block once each field's lookup is known: title,
   link, description, image, in that order; an exception from any lookup
   discards the container.
   */
  function Assemble(join: (string, string) -> string, cfg: SourceConfig,
                    title: Lookup, link: Lookup, desc: Lookup, img: Lookup): (r: Extraction)
    ensures r.Extracted? ==>
      && r.item.source == cfg.name
      && r.item.title != "" && Trimmed(r.item.title)
      && |r.item.description| <= MaxDescription && Trimmed(r.item.description)
  {
    match title
    case Fault => Skipped(Raised)
    case NotFound => Skipped(NoTitle)
    case Found(te) =>
      var text := Strip(te.text);
      if text == "" then Skipped(EmptyTitle)
      else match link
        case Fault => Skipped(Raised)
        case NotFound => Skipped(NoLink)
        case Found(le) =>
          if !HasHref(le) then Skipped(EmptyHref)
          else
            var url := Resolve(join, cfg.baseUrl, le.attrs["href"]);
            match desc
            case Fault => Skipped(Raised)
            case NotFound => WithImage(join, cfg, img, Item(cfg.name, Strip(text), url, "", None))
            case Found(de) => WithImage(join, cfg, img, Item(cfg.name, Strip(text), url, Describe(de.text), None))
  }

  /** The image step, last in the `try` block: its exception still discards the item. */
  function WithImage(join: (string, string) -> string, cfg: SourceConfig, img: Lookup, partial: Item): (r: Extraction)
    ensures r.Extracted? ==> r.item == partial.(image := r.item.image)
    ensures img.Fault? <==> r.Skipped?
    ensures img.NotFound? ==> r == Extracted(partial)
    ensures img.Found? ==> r == Extracted(partial.(image := ImageOf(join, cfg.baseUrl, img.elem)))
  {
    match img
    case Fault => Skipped(Raised)
    case NotFound => Extracted(partial)
    case Found(ie) => Extracted(partial.(image := ImageOf(join, cfg.baseUrl, ie)))
  }

  /** The `href` of a link element, when truthy. */
  predicate HasHref(e: Element)
  {
    "href" in e.attrs && e.attrs["href"] != ""
  }

  /**
   A container yields an item exactly when its title is found with non-empty
   text, its link is found with a non-empty href, and neither the description
   nor the image lookup raises.
   */
  lemma AssembledIff(join: (string, string) -> string, cfg: SourceConfig,
                     title: Lookup, link: Lookup, desc: Lookup, img: Lookup)
    ensures Assemble(join, cfg, title, link, desc, img).Extracted?
            <==> && title.Found? && Strip(title.elem.text) != ""
                 && link.Found? && HasHref(link.elem)
                 && !desc.Fault? && !img.Fault?
  {
    if title.Found? && Strip(title.elem.text) != "" && link.Found? && HasHref(link.elem) {
      var it := Item(cfg.name, Strip(Strip(title.elem.text)), Resolve(join, cfg.baseUrl, link.elem.attrs["href"]),
                     if desc.Found? then Describe(desc.elem.text) else "", None);
      if !desc.Fault? {
        assert Assemble(join, cfg, title, link, desc, img) == WithImage(join, cfg, img, it);
      }
    }
  }

  /**
   The fields of an extracted item: the stripped text of the title element,
   the normalised href of the link element, the truncated text of the
   description element (or ""), the image of the image element (or None).
   */
  lemma AssembledFields(join: (string, string) -> string, cfg: SourceConfig,
                        title: Lookup, link: Lookup, desc: Lookup, img: Lookup)
    requires Assemble(join, cfg, title, link, desc, img).Extracted?
    ensures title.Found? && link.Found? && HasHref(link.elem)
    ensures var it := Assemble(join, cfg, title, link, desc, img).item;
            var href := link.elem.attrs["href"];
            && it.title == Strip(title.elem.text)
            && it.url == (if StartsWith(href, "http") then href else join(cfg.baseUrl, href))
            && it.description == (if desc.Found? then Describe(desc.elem.text) else "")
            && it.image == (if img.Found? then ImageOf(join, cfg.baseUrl, img.elem) else None)
  {
    StripTrimmed(Strip(title.elem.text));
  }

  /** What each container of a page yields, in document order. */
  function Extractions(join: (string, string) -> string, cfg: SourceConfig, containers: seq<Container>): (es: seq<Extraction>)
    ensures |es| == |containers|
    ensures forall i :: 0 <= i < |containers| ==> es[i] == ExtractItem(join, cfg, containers[i])
  {
    seq(|containers|, i requires 0 <= i < |containers| => ExtractItem(join, cfg, containers[i]))
  }

  /** The items of the extractions that were not skipped, in order (the `append` of the loop). */
  function Items(es: seq<Extraction>): (r: seq<Item>)
    ensures |r| <= |es|
    ensures forall it :: it in r ==> Extracted(it) in es
  {
    if es == [] then []
    else Items(es[..|es| - 1]) + (if es[|es| - 1].Extracted? then [es[|es| - 1].item] else [])
  }

  /** The positions of the extractions that were not skipped, in increasing order. */
  function Kept(es: seq<Extraction>): seq<nat>
  {
    if es == [] then []
    else Kept(es[..|es| - 1]) + (if es[|es| - 1].Extracted? then [|es| - 1] else [])
  }

  /** The positions `Kept` lists are valid and strictly increasing. */
  lemma {:induction false} KeptIncreasing(es: seq<Extraction>)
    ensures forall j :: 0 <= j < |Kept(es)| ==> Kept(es)[j] < |es|
    ensures forall a, b :: 0 <= a < b < |Kept(es)| ==> Kept(es)[a] < Kept(es)[b]
  {
    if es != [] {
      var n := |es| - 1;
      var front := es[..n];
      KeptIncreasing(front);
      var ks := Kept(es);
      var ks' := Kept(front);
      var tail: seq<nat> := if es[n].Extracted? then [n] else [];
      assert ks == ks' + tail;
      assert |front| == n;
      forall j | 0 <= j < |ks|
        ensures ks[j] < |es|
        ensures j < |ks'| ==> ks[j] < n
      {
        if j < |ks'| {
          assert ks[j] == ks'[j];
        } else {
          assert ks[j] == tail[j - |ks'|];
        }
      }
    }
  }

  /** A position is kept exactly when its extraction succeeded. */
  lemma {:induction false} KeptIff(es: seq<Extraction>)
    ensures forall i :: 0 <= i < |es| ==> (es[i].Extracted? <==> i in Kept(es))
  {
    if es != [] {
      var n := |es| - 1;
      var front := es[..n];
      KeptIff(front);
      KeptIncreasing(front);
      var ks' := Kept(front);
      assert n !in ks';
      forall i | 0 <= i < n
        ensures es[i].Extracted? <==> i in Kept(es)
      {
        assert es[i] == front[i];
      }
    }
  }

  /** The j-th item is the item extracted at the j-th kept position. */
  lemma {:induction false} ItemsAtKept(es: seq<Extraction>)
    ensures |Kept(es)| == |Items(es)|
    ensures forall j :: 0 <= j < |Kept(es)| ==> Kept(es)[j] < |es| && es[Kept(es)[j]] == Extracted(Items(es)[j])
  {
    KeptIncreasing(es);
    if es != [] {
      var n := |es| - 1;
      var front := es[..n];
      ItemsAtKept(front);
      KeptIncreasing(front);
      var items := Items(es);
      var items' := Items(front);
      var ks := Kept(es);
      var ks' := Kept(front);
      forall j | 0 <= j < |ks'|
        ensures es[ks[j]] == Extracted(items[j])
      {
        assert ks[j] == ks'[j] && items[j] == items'[j];
        assert es[ks'[j]] == front[ks'[j]];
      }
    }
  }

  /** `items[:5]`. */
  function Window(containers: seq<Container>): seq<Container>
  {
    containers[..Min(MaxContainers, |containers|)]
  }

  /**
   `parse_source(html, config)`: the items of the first five containers; an
   unparsable page yields the empty list.
   */
  function Parse(join: (string, string) -> string, cfg: SourceConfig, page: Page): (r: seq<Item>)
    ensures |r| <= MaxContainers
    ensures page.Unparsable? ==> r == []
    ensures page.Parsed? ==> |r| <= |page.containers|
    ensures forall it :: it in r ==> it.source == cfg.name && it.title != ""
  {
    match page
    case Unparsable => []
    case Parsed(cs) =>
      Items(Extractions(join, cfg, Window(cs)))
  }

  /**
   The items of a parsed page are exactly the unskipped containers among the
   first five, each from its own container and in document order; a skipped
   container leaves a gap that no later container fills.
   */
  lemma ParseOrigins(join: (string, string) -> string, cfg: SourceConfig, cs: seq<Container>)
    ensures |Kept(Extractions(join, cfg, Window(cs)))| == |Parse(join, cfg, Parsed(cs))|
    ensures forall j :: 0 <= j < |Kept(Extractions(join, cfg, Window(cs)))| ==>
              var k := Kept(Extractions(join, cfg, Window(cs)))[j];
              k < MaxContainers && k < |cs| && ExtractItem(join, cfg, cs[k]) == Extracted(Parse(join, cfg, Parsed(cs))[j])
    ensures forall a, b :: 0 <= a < b < |Kept(Extractions(join, cfg, Window(cs)))| ==>
              Kept(Extractions(join, cfg, Window(cs)))[a] < Kept(Extractions(join, cfg, Window(cs)))[b]
    ensures forall i :: 0 <= i < |cs| ==>
              (i in Kept(Extractions(join, cfg, Window(cs))) <==> i < MaxContainers && ExtractItem(join, cfg, cs[i]).Extracted?)
  {
    var w := Window(cs);
    var es := Extractions(join, cfg, w);
    var items := Parse(join, cfg, Parsed(cs));
    assert items == Items(es);
    KeptIncreasing(es);
    KeptIff(es);
    ItemsAtKept(es);
    var ks := Kept(es);
    forall j | 0 <= j < |ks|
      ensures ks[j] < MaxContainers && ks[j] < |cs| && ExtractItem(join, cfg, cs[ks[j]]) == Extracted(items[j])
    {
      assert es[ks[j]] == ExtractItem(join, cfg, w[ks[j]]);
      assert w[ks[j]] == cs[ks[j]];
    }
    forall i | 0 <= i < |cs|
      ensures i in ks <==> i < MaxContainers && ExtractItem(join, cfg, cs[i]).Extracted?
    {
      if i < |w| {
        assert es[i] == ExtractItem(join, cfg, w[i]);
        assert w[i] == cs[i];
      }
    }
  }
}

=== FILE: fetch.dfy ===
/**
 The retry loop of `fetch_url`. The network is replaced by the sequence of
 outcomes the successive attempts would meet; the sleeps are recorded, not
 taken.
 */
module Fetch {
  import opened Wrappers

  /** What one `session.get` attempt meets. */
  datatype Attempt =
    | Response(status: int, body: string)  // the server answered with this status
    | TimedOut                              // asyncio.TimeoutError
    | Failed                                // any other exception

  /** The attempt count the cycles use (the default of `retries`). */
  const Retries: nat := 3

  datatype FetchResult = FetchResult(
    body: Option<string>,   // the page text, or None
    attempts: nat,          // requests issued
    backoff: seq<nat>)      // the `asyncio.sleep` durations, in seconds, in order

  predicate IsOk(a: Attempt)
  {
    a.Response? && a.status == 200
  }

  function Pow2(n: nat): (r: nat)
    ensures r >= 1
  {
    if n == 0 then 1 else 2 * Pow2(n - 1)
  }

  /** The sleeps after the first `k` failed attempts: 1, 2, 4, ... */
  function Backoffs(k: nat): (r: seq<nat>)
    ensures |r| == k
    ensures forall j :: 0 <= j < k ==> r[j] == Pow2(j)
  {
    if k == 0 then [] else Backoffs(k - 1) + [Pow2(k - 1)]
  }

  function Sum(xs: seq<nat>): nat
  {
    if xs == [] then 0 else Sum(xs[..|xs| - 1]) + xs[|xs| - 1]
  }

  /** The first successful attempt among the first `n`, if any. */
  function FirstOk(outcomes: seq<Attempt>, n: nat): (r: Option<nat>)
    requires n <= |outcomes|
    ensures r.Some? ==> r.value < n && IsOk(outcomes[r.value])
                        && forall j :: 0 <= j < r.value ==> !IsOk(outcomes[j])
    ensures r.None? <==> forall j :: 0 <= j < n ==> !IsOk(outcomes[j])
  {
    if n == 0 then None
    else match FirstOk(outcomes, n - 1)
      case Some(i) => Some(i)
      case None => if IsOk(outcomes[n - 1]) then Some(n - 1) else None
  }

  /**
   What `fetch_url(url, retries)` returns and does: the body of the first
   status-200 attempt (no attempt after it), or None when every one of the
   `retries` attempts failed; a back-off of 2^attempt seconds after each
   failed attempt except the last one allowed.
   */
  function FetchSpec(outcomes: seq<Attempt>, retries: nat): (r: FetchResult)
    requires retries <= |outcomes|
    ensures r.attempts <= retries
    ensures r.body.None? <==> forall i :: 0 <= i < retries ==> !IsOk(outcomes[i])
    ensures r.body.None? ==> r.attempts == retries
    ensures r.body.Some? ==> && 0 < r.attempts
                             && IsOk(outcomes[r.attempts - 1])
                             && r.body.value == outcomes[r.attempts - 1].body
                             && forall j :: 0 <= j < r.attempts - 1 ==> !IsOk(outcomes[j])
    ensures |r.backoff| == if r.attempts == 0 then 0 else r.attempts - 1
    ensures forall k :: 0 <= k < |r.backoff| ==> r.backoff[k] == Pow2(k)
  {
    match FirstOk(outcomes, retries)
    case Some(i) => FetchResult(Some(outcomes[i].body), i + 1, Backoffs(i))
    case None => FetchResult(None, retries, Backoffs(if retries == 0 then 0 else retries - 1))
  }

  /** The loop of `fetch_url`, attempt by attempt. */
  method FetchUrl(outcomes: seq<Attempt>, retries: nat) returns (r: FetchResult)
    requires retries <= |outcomes|
    ensures r == FetchSpec(outcomes, retries)
  {
    var attempt := 0;
    var delays: seq<nat> := [];
    while attempt < retries
      invariant attempt <= retries
      invariant FirstOk(outcomes, attempt).None?
      invariant delays == Backoffs(if attempt == retries && retries > 0 then attempt - 1 else attempt)
    {
      match outcomes[attempt] {
        case Response(status, body) =>
          if status == 200 {
            return FetchResult(Some(body), attempt + 1, delays);
          }
          if attempt < retries - 1 {
            delays := delays + [Pow2(attempt)];
          }
        case TimedOut =>
          if attempt < retries - 1 {
            delays := delays + [Pow2(attempt)];
          }
        case Failed =>
          if attempt < retries - 1 {
            delays := delays + [Pow2(attempt)];
          }
      }
      attempt := attempt + 1;
    }
    return FetchResult(None, retries, delays);
  }

  /** The sleeps of `k` back-offs add up to 2^k - 1 seconds. */
  lemma {:induction false} BackoffTotal(k: nat)
    ensures Sum(Backoffs(k)) == Pow2(k) - 1
  {
    if k > 0 {
      BackoffTotal(k - 1);
      assert Backoffs(k)[..k - 1] == Backoffs(k - 1);
    }
  }

  /**
   With the default three attempts a fetch issues at most three requests and
   sleeps at most 1 + 2 seconds, never after the final attempt.
   */
  lemma DefaultFetchBounds(outcomes: seq<Attempt>)
    requires Retries <= |outcomes|
    ensures var r := FetchSpec(outcomes, Retries);
            && r.attempts <= 3
            && |r.backoff| <= 2
            && Sum(r.backoff) <= 3
  {
    var r := FetchSpec(outcomes, Retries);
    BackoffTotal(|r.backoff|);
    assert r.backoff == Backoffs(|r.backoff|);
  }
}

=== FILE: format.dfy ===
/**
 `format_news_post` and `format_release_post`: the HTML caption of a post,
 built by plain concatenation.
 */
module Format {
  import opened Extract
  import opened Text

  const NewsMark := "\U{1F4F0}"      // newspaper
  const ReleaseMark := "\U{1F525}"   // fire
  const SourceMark := "\U{1F4CD}"    // round pushpin
  const LinkMark := "\U{1F517}"      // link symbol

  const NewsAnchor := "Read more"
  const ReleaseAnchor := "Chart on Billboard"

  /** The description paragraph, present only for a non-empty description. */
  function DescriptionBlock(item: Item): string
  {
    if item.description != "" then item.description + "\n\n" else ""
  }

  /** The bold title line, after the leading mark. */
  function Heading(item: Item): string
  {
    " <b>" + item.title + "</b>\n\n"
  }

  /** The source line and the opening of the link. */
  function Footer(item: Item): string
  {
    SourceMark + " " + item.source + "\n" + LinkMark + " <a href='"
  }

  /** The anchor: the item's url and the call to action. */
  function Anchor(item: Item, text: string): string
  {
    item.url + "'>" + text + "</a>"
  }

  /** Everything between the leading mark and the anchor text. */
  function Body(item: Item): string
  {
    Heading(item) + DescriptionBlock(item) + Footer(item) + item.url + "'>"
  }

  function Post(mark: string, item: Item, anchor: string): (post: string)
    ensures StartsWith(post, mark + Heading(item))
    ensures EndsWith(post, Footer(item) + Anchor(item, anchor))
    ensures post == mark + Heading(item) + DescriptionBlock(item) + post[|post| - |Footer(item) + Anchor(item, anchor)|..]
  {
    var post := mark + Body(item) + (anchor + "</a>");
    assert post == (mark + Heading(item)) + DescriptionBlock(item) + (Footer(item) + Anchor(item, anchor));
    post
  }

  /** The caption a news item is published with. */
  function FormatNews(item: Item): (post: string)
    ensures StartsWith(post, NewsMark + " <b>" + item.title + "</b>\n\n")
    ensures EndsWith(post, SourceMark + " " + item.source + "\n" + LinkMark + " <a href='" + item.url + "'>" + NewsAnchor + "</a>")
    ensures post == NewsMark + Heading(item) + DescriptionBlock(item) + post[|post| - |Footer(item) + Anchor(item, NewsAnchor)|..]
  {
    Tail(item, NewsAnchor);
    Post(NewsMark, item, NewsAnchor)
  }

  /** The caption a release is published with. */
  function FormatRelease(item: Item): (post: string)
    ensures StartsWith(post, ReleaseMark + " <b>" + item.title + "</b>\n\n")
    ensures EndsWith(post, SourceMark + " " + item.source + "\n" + LinkMark + " <a href='" + item.url + "'>" + ReleaseAnchor + "</a>")
    ensures post == ReleaseMark + Heading(item) + DescriptionBlock(item) + post[|post| - |Footer(item) + Anchor(item, ReleaseAnchor)|..]
  {
    Tail(item, ReleaseAnchor);
    Post(ReleaseMark, item, ReleaseAnchor)
  }

  /** The source line and the anchor, spelled out. */
  lemma Tail(item: Item, anchor: string)
    ensures Footer(item) + Anchor(item, anchor)
            == SourceMark + " " + item.source + "\n" + LinkMark + " <a href='" + item.url + "'>" + anchor + "</a>"
  {
  }

  /**
   The two formatters agree on everything except the one-character leading
   mark and the anchor text.
   */
  lemma FormattersDifferOnlyInMarkAndAnchor(item: Item)
    ensures |NewsMark| == 1 && |ReleaseMark| == 1
    ensures var n := FormatNews(item);
            var r := FormatRelease(item);
            && n[0] == NewsMark[0] && r[0] == ReleaseMark[0]
            && n[1..|n| - |NewsAnchor + "</a>"|] == r[1..|r| - |ReleaseAnchor + "</a>"|]
  {
    Infix(NewsMark, Body(item), NewsAnchor + "</a>");
    Infix(ReleaseMark, Body(item), ReleaseAnchor + "</a>");
  }

  /**
   The description paragraph appears exactly when the description is
   non-empty, right after the heading: the caption is the caption of the same
   item without description with `description + "\n\n"` inserted there.
   */
  lemma DescriptionShownIffNonEmpty(item: Item)
    ensures FormatNews(item) == FormatNews(item.(description := "")) <==> item.description == ""
    ensures FormatRelease(item) == FormatRelease(item.(description := "")) <==> item.description == ""
    ensures item.description != "" ==>
              FormatNews(item) == NewsMark + Heading(item) + item.description + "\n\n"
                                  + FormatNews(item.(description := ""))[|NewsMark + Heading(item)|..]
    ensures item.description != "" ==>
              FormatRelease(item) == ReleaseMark + Heading(item) + item.description + "\n\n"
                                     + FormatRelease(item.(description := ""))[|ReleaseMark + Heading(item)|..]
  {
    DescriptionInserted(NewsMark, item, NewsAnchor);
    DescriptionInserted(ReleaseMark, item, ReleaseAnchor);
  }

  /** Dropping the description removes exactly the description block after the heading. */
  lemma DescriptionInserted(mark: string, item: Item, anchor: string)
    ensures var bare := item.(description := "");
            && Post(mark, item, anchor) == mark + Heading(item) + DescriptionBlock(item) + Post(mark, bare, anchor)[|mark + Heading(item)|..]
            && |Post(mark, item, anchor)| == |Post(mark, bare, anchor)| + |DescriptionBlock(item)|
  {
    var bare := item.(description := "");
    var head := mark + Heading(item);
    var tail := Footer(item) + Anchor(item, anchor);
    assert Heading(bare) == Heading(item) && Footer(bare) == Footer(item) && Anchor(bare, anchor) == Anchor(item, anchor);
    assert Post(mark, item, anchor) == head + DescriptionBlock(item) + tail;
    assert Post(mark, bare, anchor) == head + tail;
    assert (head + tail)[|head|..] == tail;
  }

  lemma Infix(a: string, m: string, b: string)
    ensures (a + m + b)[|a|..|a + m + b| - |b|] == m
  {
    var s := a + m + b;
    assert forall k :: 0 <= k < |m| ==> s[|a| + k] == m[k];
  }
}

=== FILE: publish.dfy ===
/**
 `post_single_item`: the dedup guard, photo delivery with its text fallback,
 and the mark on success. The Telegram calls are replaced by whether each
 call would succeed; the calls made are recorded.
 */
module Publish {
  import opened Wrappers
  import opened Store
  import opened Extract
  import opened Format

  /** How one call to the transport went. */
  datatype Transport = Transport(photoOk: bool, textOk: bool)

  /** One call to `send_photo` (with `photo`) or `send_message` (photo None), for `item`. */
  datatype Send = Send(channel: string, item: Item, photo: Option<string>, content: string, ok: bool)

  datatype Published = Published(posted: bool, rows: Rows, sends: seq<Send>)

  /** The formatter the cycle of each kind passes. */
  function Render(kind: Kind, item: Item): string
  {
    match kind
    case News => FormatNews(item)
    case Release => FormatRelease(item)
  }

  /** Some call in `sends` succeeded. */
  predicate Delivered(sends: seq<Send>)
  {
    exists i :: 0 <= i < |sends| && sends[i].ok
  }

  /** The number of calls in `sends` that succeeded. */
  function OkCount(sends: seq<Send>): nat
  {
    if sends == [] then 0 else OkCount(sends[..|sends| - 1]) + (if sends[|sends| - 1].ok then 1 else 0)
  }

  /**
   `post_single_item(item, channel, formatter, item_type)`: an item already
   posted under this kind is refused with no call and no write; otherwise
   the photo is tried first when the item has one, the text is sent when
   there is no photo or the photo call failed, and the item is marked
   exactly when one of these calls succeeded.
   */
  function PostSingleItem(schema: Schema, rows: Rows, item: Item, channel: string, kind: Kind, t: Transport): (r: Published)
    ensures IsPosted(rows, item.url, kind) ==> !r.posted && r.rows == rows && r.sends == []
    ensures !IsPosted(rows, item.url, kind) ==>
              (r.posted <==> (item.image.Some? && (t.photoOk || t.textOk)) || (item.image.None? && t.textOk))
    ensures r.posted <==> Delivered(r.sends)
    ensures r.posted ==> r.rows == Mark(schema, rows, item.url, kind)
    ensures !r.posted ==> r.rows == rows
    ensures OkCount(r.sends) == (if r.posted then 1 else 0)
    ensures 1 <= |r.sends| <= 2 || r.sends == []
    ensures !IsPosted(rows, item.url, kind) ==> |r.sends| >= 1 && r.sends[0].photo == item.image
    ensures |r.sends| == 2 <==> !IsPosted(rows, item.url, kind) && item.image.Some? && !t.photoOk
    ensures |r.sends| == 2 ==> r.sends[1].photo.None? && r.sends[1].ok == t.textOk
    ensures forall i :: 0 <= i < |r.sends| ==>
              && r.sends[i].item == item && r.sends[i].channel == channel
              && r.sends[i].content == Render(kind, item)
              && (r.sends[i].photo.Some? ==> i == 0 && r.sends[i].photo == item.image)
  {
    if IsPosted(rows, item.url, kind) then Published(false, rows, [])
    else
      var text := Render(kind, item);
      var textSend := Send(channel, item, None, text, t.textOk);
      var sends :=
        if item.image.Some? then
          if t.photoOk then [Send(channel, item, item.image, text, true)]
          else [Send(channel, item, item.image, text, false), textSend]
        else [textSend];
      var posted := if item.image.Some? && t.photoOk then true else t.textOk;
      assert sends[|sends| - 1].ok == posted;
      assert OkCount([sends[0]]) == if sends[0].ok then 1 else 0 by {
        assert [sends[0]][..0] == [];
      }
      assert |sends| == 2 ==> sends[..1] == [sends[0]] && !sends[0].ok;
      Published(posted, if posted then Mark(schema, rows, item.url, kind) else rows, sends)
  }

  /**
   As deployed (`url` alone UNIQUE), a url already published as a release is
   re-delivered every time the news cycle meets it with a working transport:
   each attempt sends, reports success and leaves the table unchanged, so the
   next attempt sends again.
   */
  lemma ReleaseUrlResentAsNews(rows: Rows, item: Item, channel: string, t: Transport)
    requires Valid(Deployed, rows)
    requires IsPosted(rows, item.url, Release)
    requires (item.image.Some? && (t.photoOk || t.textOk)) || (item.image.None? && t.textOk)
    ensures var first := PostSingleItem(Deployed, rows, item, channel, News, t);
            var second := PostSingleItem(Deployed, first.rows, item, channel, News, t);
            && first.posted && Delivered(first.sends) && first.rows == rows
            && second.posted && Delivered(second.sends) && second.rows == rows
  {
    CrossKindMarkSwallowed(rows, item.url);
  }

  /**
   With the per-kind constraint, a published item is posted for its kind
   afterwards, so publishing it again makes no call.
   */
  lemma PublishedNotResent(rows: Rows, item: Item, channel: string, kind: Kind, t: Transport, t': Transport)
    ensures var first := PostSingleItem(UrlKindUnique, rows, item, channel, kind, t);
            var second := PostSingleItem(UrlKindUnique, first.rows, item, channel, kind, t');
            first.posted ==> IsPosted(first.rows, item.url, kind) && !second.posted && second.sends == []
  {
  }
}

=== FILE: registry.dfy ===
/** The configured sources, `NEWS_SOURCES` and `RELEASE_SOURCES`. */
module Registry {
  import opened Extract

  const NewsSources: seq<SourceConfig> := [
    SourceConfig(
      "HipHopDX News", "https://hiphopdx.com/news",
      "article, .category-list-item, .list-item",
      "h3 a, .title-link, h2 a", "h3 a, .title-link, h2 a",
      ".excerpt, .summary, .description",
      "img[data-src], img[src], .image img",
      "https://hiphopdx.com"),
    SourceConfig(
      "AllHipHop News", "https://www.allhiphop.com/news/",
      ".article, .post-item, .news-card",
      "h2 a, .entry-title a, h3 a", "h2 a, .entry-title a, h3 a",
      ".excerpt, .entry-summary, .post-excerpt",
      "img[data-src], img[src], .post-image img",
      "https://www.allhiphop.com"),
    SourceConfig(
      "XXL News", "https://xxl.com/news",
      ".article, .story, .post, .news-item",
      "h2 a, .headline a, h3 a", "h2 a, .headline a, h3 a",
      ".excerpt, .summary, .dek",
      "img[data-src], img[src], .media img",
      "https://xxl.com")
  ]

  /** The two chart sources have an empty description rule: one empty selector. */
  const ReleaseSources: seq<SourceConfig> := [
    SourceConfig(
      "HipHopDX Album Reviews", "https://hiphopdx.com/album-reviews",
      "article, .category-list-item, .list-item, .review-item",
      "h3 a, .title-link, h2 a", "h3 a, .title-link, h2 a",
      ".excerpt, .summary, .description",
      "img[data-src], img[src], .image img",
      "https://hiphopdx.com"),
    SourceConfig(
      "AllHipHop Album Reviews", "https://www.allhiphop.com/tag/album-review/",
      ".article, .post-item, .news-card, .review-card",
      "h2 a, .entry-title a, h3 a", "h2 a, .entry-title a, h3 a",
      ".excerpt, .entry-summary, .post-excerpt, .review-excerpt",
      "img[data-src], img[src], .post-image img",
      "https://www.allhiphop.com"),
    SourceConfig(
      "Billboard Hot 100", "https://www.billboard.com/charts/hot-100/",
      ".o-chart-results-list-row",
      "h3 a", "h3 a",
      "",
      "img[data-lazy-src], img[src]",
      "https://www.billboard.com"),
    SourceConfig(
      "Billboard 200 Albums", "https://www.billboard.com/charts/billboard-200/",
      ".o-chart-results-list-row",
      "h3 a", "h3 a",
      "",
      "img[data-lazy-src], img[src]",
      "https://www.billboard.com"),
    SourceConfig(
      "XXL Freshmen", "https://xxl.com/freshmen",
      ".article, .story, .post, .freshmen-item",
      "h2 a, .headline a, h3 a", "h2 a, .headline a, h3 a",
      ".excerpt, .summary, .dek",
      "img[data-src], img[src], .media img",
      "https://xxl.com")
  ]
}

=== FILE: store.dfy ===
/**
 The dedup store behind `init_db`, `is_posted` and `mark_as_posted`: the
 `posted_items` table seen as a finite set of (url, type) rows. The id and
 timestamp columns are never read back and are not modelled.
 */
module Store {

  /** The `type` column: 'news' or 'release'. */
  datatype Kind = News | Release

  datatype Row = Row(url: string, kind: Kind)

  type Rows = set<Row>

  /**
   Which uniqueness constraint the table enforces. The schema as written makes
   `url` alone UNIQUE; `UrlKindUnique` is the per-category constraint that
   `is_posted` (which filters on both columns) presupposes.
   */
  datatype Schema = UrlUnique | UrlKindUnique

  /** The constraint in the table definition of `init_db`. */
  const Deployed: Schema := UrlUnique

  /** Some row already carries this url, under any kind. */
  predicate HasUrl(s: Rows, url: string)
  {
    exists r | r in s :: r.url == url
  }

  /** The other category. */
  function Other(kind: Kind): Kind
  {
    match kind
    case News => Release
    case Release => News
  }

  /**
   The table satisfies its uniqueness constraint. A set never holds a pair
   twice, so the per-kind constraint always holds; url-only UNIQUE forbids a
   url under both categories.
   */
  predicate Valid(schema: Schema, s: Rows): (v: bool)
    ensures schema.UrlKindUnique? ==> v
    ensures v && schema.UrlUnique? ==> forall r | r in s :: Row(r.url, Other(r.kind)) !in s
  {
    schema.UrlUnique? ==> forall r1, r2 | r1 in s && r2 in s :: r1.url == r2.url ==> r1 == r2
  }

  /** `is_posted(url, type)`: `SELECT 1 ... WHERE url = ? AND type = ?` finds a row. */
  predicate IsPosted(s: Rows, url: string, kind: Kind): (b: bool)
    ensures b <==> exists r | r in s :: r.url == url && r.kind == kind
    ensures b ==> HasUrl(s, url)
  {
    Row(url, kind) in s
  }

  /**
   `mark_as_posted(url, type)`: an INSERT whose constraint violation is swallowed,
   so it never fails. It adds the row exactly when the constraint allows it and
   otherwise leaves the table as it was.
   */
  function Mark(schema: Schema, s: Rows, url: string, kind: Kind): (s': Rows)
    ensures s <= s'
    ensures s' - s <= {Row(url, kind)}
    ensures Valid(schema, s) ==> Valid(schema, s')
    ensures schema.UrlKindUnique? ==> IsPosted(s', url, kind)
    ensures schema.UrlUnique? ==> (IsPosted(s', url, kind) <==> IsPosted(s, url, kind) || !HasUrl(s, url))
  {
    match schema
    case UrlUnique => if HasUrl(s, url) then s else s + {Row(url, kind)}
    case UrlKindUnique => s + {Row(url, kind)}
  }

  /** Marking twice is the same as marking once. */
  lemma MarkIdempotent(schema: Schema, s: Rows, url: string, kind: Kind)
    ensures Mark(schema, Mark(schema, s, url, kind), url, kind) == Mark(schema, s, url, kind)
  {
    var s1 := Mark(schema, s, url, kind);
    if schema.UrlUnique? && !HasUrl(s, url) {
      assert Row(url, kind) in s1;
      assert HasUrl(s1, url);
    }
  }

  /**
   What `is_posted` answers after `mark_as_posted`, for every (url, type) query:
   only the marked pair can change, and it becomes posted unless the url-only
   constraint rejected it.
   */
  lemma PostedAfterMark(schema: Schema, s: Rows, url: string, kind: Kind, u: string, k: Kind)
    ensures IsPosted(Mark(schema, s, url, kind), u, k)
            <==> IsPosted(s, u, k)
                 || (u == url && k == kind && (schema.UrlKindUnique? || !HasUrl(s, url)))
  {
  }

  /**
   As written, a url already recorded under one kind can never be recorded
   under the other: the INSERT violates `url UNIQUE` and is swallowed, so
   `is_posted` keeps answering false for the new kind.
   */
  lemma CrossKindMarkSwallowed(s: Rows, url: string)
    requires IsPosted(s, url, Release)
    requires Valid(UrlUnique, s)
    ensures !IsPosted(s, url, News)
    ensures Mark(UrlUnique, s, url, News) == s
    ensures !IsPosted(Mark(UrlUnique, s, url, News), url, News)
  {
    assert HasUrl(s, url);
  }

  /** With the per-kind constraint, a mark is always visible to the next `is_posted`. */
  lemma MarkThenPosted(s: Rows, url: string, kind: Kind)
    ensures IsPosted(Mark(UrlKindUnique, s, url, kind), url, kind)
    ensures Mark(UrlKindUnique, s, url, kind) == s <==> IsPosted(s, url, kind)
  {
  }
}

=== FILE: text.dfy ===
/**
 Python's string primitives as the bot uses them: `str.strip()`, `str.startswith`
 and `str.split(', ')`. Characters are Unicode scalar values, so a Dafny `string`
 indexes exactly as a Python `str` of Unicode scalar values does.
 */
module Text {

  /** Python's `str.isspace` for a single code point (the set `str.strip()` removes). */
  predicate IsSpace(c: char)
  {
    c in Whitespace
  }

  const Whitespace: set<char> :=
    {' ', '\t', '\n', '\U{B}', '\U{C}', '\r', '\U{1C}', '\U{1D}', '\U{1E}', '\U{1F}',
     '\U{85}', '\U{A0}', '\U{1680}',
     '\U{2000}', '\U{2001}', '\U{2002}', '\U{2003}', '\U{2004}', '\U{2005}',
     '\U{2006}', '\U{2007}', '\U{2008}', '\U{2009}', '\U{200A}',
     '\U{2028}', '\U{2029}', '\U{202F}', '\U{205F}', '\U{3000}'}

  /** Neither end of `s` is whitespace. */
  predicate Trimmed(s: string)
  {
    |s| == 0 || (!IsSpace(s[0]) && !IsSpace(s[|s| - 1]))
  }

  predicate StartsWith(s: string, prefix: string)
  {
    |prefix| <= |s| && s[..|prefix|] == prefix
  }

  predicate EndsWith(s: string, suffix: string)
  {
    |suffix| <= |s| && s[|s| - |suffix|..] == suffix
  }

  /** Drops leading whitespace: the result is the suffix of `s` after a run of spaces. */
  function StripLeft(s: string): (r: string)
    ensures |r| <= |s| && r == s[|s| - |r|..]
    ensures forall k :: 0 <= k < |s| - |r| ==> IsSpace(s[k])
    ensures |r| > 0 ==> !IsSpace(s[|s| - |r|])
    decreases |s|
  {
    if |s| > 0 && IsSpace(s[0]) then StripLeft(s[1..]) else s
  }

  /** Drops trailing whitespace: the result is the prefix of `s` before a run of spaces. */
  function StripRight(s: string): (r: string)
    ensures |r| <= |s| && r == s[..|r|]
    ensures forall k :: |r| <= k < |s| ==> IsSpace(s[k])
    ensures |r| > 0 ==> !IsSpace(s[|r| - 1])
    decreases |s|
  {
    if |s| > 0 && IsSpace(s[|s| - 1]) then StripRight(s[..|s| - 1]) else s
  }

  /** Python's `s.strip()`. */
  function Strip(s: string): (r: string)
    ensures Trimmed(r)
    ensures |r| <= |s|
  {
    StripRight(StripLeft(s))
  }

  /** Stripping text that is already trimmed changes nothing; in particular `Strip` is idempotent. */
  lemma StripTrimmed(s: string)
    requires Trimmed(s)
    ensures Strip(s) == s
  {
    assert StripLeft(s) == s;
    assert StripRight(s) == s;
  }

  /** On text with no leading space, `strip()` only drops the trailing run. */
  lemma StripNoLeadingSpace(c: string)
    requires |c| == 0 || !IsSpace(c[0])
    ensures Strip(c) == StripRight(c)
  {
    assert StripLeft(c) == c;
  }

  /**
   Python's `s.strip()[:n].strip()` on text with no leading space is a trimmed prefix of it,
   no longer than `n`, and empty only when the text is; of the first `n` characters it
   drops only trailing whitespace.
   */
  lemma StripTruncate(t: string, n: nat)
    requires n > 0
    requires |t| == 0 || !IsSpace(t[0])
    ensures var d := Strip(t[..if n <= |t| then n else |t|]); Trimmed(d) && |d| <= n
    ensures Strip(t[..if n <= |t| then n else |t|]) <= t
    ensures Strip(t[..if n <= |t| then n else |t|]) == "" <==> t == ""
    ensures forall k :: |Strip(t[..if n <= |t| then n else |t|])| <= k < (if n <= |t| then n else |t|) ==> IsSpace(t[k])
  {
    var c := t[..if n <= |t| then n else |t|];
    TruncatePrefix(t, c);
    TruncateNonEmpty(t, c);
  }

  /** What `strip()` keeps of a prefix of `t` is still a prefix of `t`. */
  lemma TruncatePrefix(t: string, c: string)
    requires c <= t
    requires |c| == 0 || !IsSpace(c[0])
    ensures Strip(c) <= t
    ensures forall k :: |Strip(c)| <= k < |c| ==> IsSpace(t[k])
  {
    StripNoLeadingSpace(c);
    var d := StripRight(c);
    assert d == c[..|d|];
    TrailingSpace(t, c, d);
  }

  lemma TrailingSpace(t: string, c: string, d: string)
    requires c <= t && |d| <= |c|
    requires forall k :: |d| <= k < |c| ==> IsSpace(c[k])
    ensures forall k :: |d| <= k < |c| ==> IsSpace(t[k])
  {
    assert forall k :: 0 <= k < |c| ==> t[k] == c[k];
  }

  /** A non-empty prefix that starts with a non-space keeps at least that character. */
  lemma TruncateNonEmpty(t: string, c: string)
    requires c <= t && (t == "" <==> c == "")
    requires |c| == 0 || !IsSpace(c[0])
    ensures Strip(c) == "" <==> t == ""
  {
    StripNoLeadingSpace(c);
    if c != "" {
      assert !IsSpace(c[0]);
    }
  }

  /** Python's `s.split(', ')`: the pieces between non-overlapping separators, left to right. */
  function Split(s: string): (r: seq<string>)
    ensures |r| >= 1 && r[0] <= s
    decreases |s|
  {
    if |s| < 2 then [s]
    else if s[0] == ',' && s[1] == ' ' then [""] + Split(s[2..])
    else
      var rest := Split(s[1..]);
      [[s[0]] + rest[0]] + rest[1..]
  }

  /** `', '.join(pieces)`, the inverse of `Split`. */
  function Join(pieces: seq<string>): string
    requires |pieces| >= 1
    decreases |pieces|
  {
    if |pieces| == 1 then pieces[0] else pieces[0] + ", " + Join(pieces[1..])
  }

  /** `s` contains no `", "` separator. */
  predicate NoSeparator(s: string)
  {
    forall k :: 0 <= k < |s| - 1 ==> !(s[k] == ',' && s[k + 1] == ' ')
  }

  /** One step of `Join` on two or more pieces. */
  lemma JoinUnfold(pieces: seq<string>)
    requires |pieces| > 1
    ensures Join(pieces) == pieces[0] + (", " + Join(pieces[1..]))
  {
  }

  /** Prefixing the first piece with `c` prefixes the joined string with `c`. */
  lemma JoinConsChar(c: char, pieces: seq<string>, p: seq<string>)
    requires |pieces| >= 1 && |p| == |pieces|
    requires p[0] == [c] + pieces[0] && p[1..] == pieces[1..]
    ensures Join(p) == [c] + Join(pieces)
  {
    if |pieces| > 1 {
      JoinUnfold(p);
      JoinUnfold(pieces);
      var tail := ", " + Join(pieces[1..]);
      assert p[0] + tail == [c] + (pieces[0] + tail);
    }
  }

  /** Splitting on `", "` and joining back is the identity. */
  lemma {:induction false} SplitJoin(s: string)
    ensures Join(Split(s)) == s
    decreases |s|
  {
    if |s| < 2 {
    } else if s[0] == ',' && s[1] == ' ' {
      var rest := Split(s[2..]);
      assert Split(s) == [""] + rest;
      SplitJoin(s[2..]);
      assert ([""] + rest)[1..] == rest;
      assert Join([""] + rest) == "" + ", " + Join(rest);
      assert ", " + s[2..] == s;
    } else {
      var rest := Split(s[1..]);
      var r := Split(s);
      assert r == [[s[0]] + rest[0]] + rest[1..];
      assert r[1..] == rest[1..];
      SplitJoin(s[1..]);
      JoinConsChar(s[0], rest, r);
      assert [s[0]] + s[1..] == s;
    }
  }

  /** No piece of a split holds the separator. */
  lemma {:induction false} SplitPieces(s: string)
    ensures forall i :: 0 <= i < |Split(s)| ==> NoSeparator(Split(s)[i])
    decreases |s|
  {
    if |s| < 2 {
    } else if s[0] == ',' && s[1] == ' ' {
      SplitPieces(s[2..]);
      var r := Split(s);
      assert r[1..] == Split(s[2..]);
      assert forall i :: 1 <= i < |r| ==> r[i] == Split(s[2..])[i - 1];
    } else {
      var rest := Split(s[1..]);
      SplitPieces(s[1..]);
      var r := Split(s);
      assert forall i :: 1 <= i < |r| ==> r[i] == rest[i];
      var p := r[0];
      assert p == [s[0]] + rest[0];
      assert rest[0] <= s[1..];
      forall k | 0 <= k < |p| - 1
        ensures !(p[k] == ',' && p[k + 1] == ' ')
      {
        if k == 0 {
          assert p[1] == rest[0][0] == s[1];
        } else {
          assert p[k] == rest[0][k - 1] && p[k + 1] == rest[0][k];
        }
      }
    }
  }
}

=== FILE: wrappers.dfy ===
/** The optional value used for Python's `None`-or-value results. */
module Wrappers {

  datatype Option<+T> = None | Some(value: T)

  function Min(a: int, b: int): int
  {
    if a <= b then a else b
  }
}
